=== FILE: README.md ===
# Instagram-to-Telegram relay: a Dafny model of its core

The relay polls a list of Instagram accounts and forwards every new post
(caption plus photos and videos) to a Telegram chat. It remembers, per
account, the id of the last post it processed (the *watermark*) so a later
run does not send the same posts again.

This project models the pure logic inside `insta_telegram_bot.py` as
functions over immutable values. The surrounding I/O is replaced by inputs
and outputs:

- `Accounts` parses the account list from its configuration string (line 17).
- `Scanner` walks one account's newest-first post stream. It stops at the
  watermark's post and computes the new watermark (lines 102-113).
- `Caption` builds the attributed caption and truncates it (lines 116-120).
- `Media` collects a post's media items, at most ten (lines 123-139).
- `Telegram` decides which Bot API request `send_telegram_media` would
  make (lines 51-83). It returns that request as an `Action` value instead
  of posting it.
- `Relay` is the main loop (lines 94-150). The fetch for each account is an
  input `Option<seq<Post>>`; `None` means the profile could not be loaded.
  The state file becomes a `map<string, int>` from username to watermark.
  A run ends `Completed` with the new state and the requests, or `Aborted`
  with the requests already made. `Aborted` stands for one exception only:
  the `IndexError` that line 66 raises for an empty media list. Nothing
  catches it, so it ends the script.
- `Instagram` holds the post records; `Wrappers` holds `Option`.

Behaviour worth noting, as the code has it:

- The running watermark starts at the stored one (line 103), not at
  "absent". So the new watermark is the maximum of the stored watermark and
  every emitted id. It is not just the newest emitted id, and it never falls
  below the stored one.
- A media list of length zero is not a no-op. Line 66 indexes item 0 and the
  `IndexError` is not caught, so the whole script stops before the state is
  written. `Relay.RelayPost` models this as `IndexError`, and `RunAccount`
  and `Run` then return `Aborted`. Such a list arises for a post whose media
  count is not 1 and that has no sidecar nodes.
- The write-back at line 146 uses Python truthiness. A watermark of 0 is
  never stored (`Relay.Truthy`).
- Posts are relayed one at a time inside the scan loop in the code. The
  model scans first and relays the emitted posts in order afterwards. This
  gives the same requests, because the scan does not depend on sending.
- A stream whose first post is older than the watermark post still emits
  that post on every run (only equality with the watermark stops the scan).
  So a second pass over the same stream may send again. It still leaves the
  state exactly as the first pass did, whatever the stream's order
  (`Relay.RerunKeepsState`). Only "the second pass sends nothing"
  (`Relay.RerunSendsNothing`) needs a newest-first stream.

## Model

| member | source | states |
|---|---|---|
| Accounts.SplitWhitespace | insta_telegram_bot.py:17 | every token of `str.split()` is non-empty and free of whitespace |
| Accounts.SplitKeepsCharacters | insta_telegram_bot.py:17 | joined together, the tokens of `str.split()` are exactly the input's non-whitespace characters, in order |
| Accounts.SplitAtSpaceRun | insta_telegram_bot.py:17 | any non-empty whitespace run ends a token: `split()` of `a + run + b` is `split()` of `a` followed by `split()` of `b`, so no token spans the run |
| Accounts.SplitOfSpaces | insta_telegram_bot.py:17 | a string of whitespace only gives no tokens |
| Accounts.SplitOfSingleWord | insta_telegram_bot.py:17 | a non-empty whitespace-free string is one token, itself |
| Accounts.Strip | insta_telegram_bot.py:17 | `str.strip()` returns the slice of its input that begins after the leading whitespace; everything after that slice is whitespace; the result neither starts nor ends with whitespace; a whitespace-free string comes back unchanged |
| Accounts.ParseAccounts | insta_telegram_bot.py:17 | commas and whitespace both separate; no account name is empty or contains a comma or whitespace; joined together, the names are exactly the input's non-separator characters, in input order |
| Accounts.ParseAtSeparatorRun | insta_telegram_bot.py:17 | any non-empty run of commas and whitespace ends a name: the text on either side of the run parses independently, the two lists concatenated |
| Accounts.ParseOfSeparators | insta_telegram_bot.py:17 | a string of commas and whitespace only gives no accounts |
| Accounts.ParseOfName | insta_telegram_bot.py:17 | a well-formed name on its own parses to exactly that one name |
| Accounts.CommaSpaceSeparates | insta_telegram_bot.py:17 | two well-formed names written with ", " between them parse to exactly those two names, in order |
| Accounts.ParseJoinRoundTrip | insta_telegram_bot.py:17 | well-formed names joined by a comma or by any whitespace character parse back to the same list, in the same order |
| Scanner.ScanFrom | insta_telegram_bot.py:106-110 | the emitted posts are a prefix of the stream; none of them has the watermark's id; the scan stops only at the end of the stream or at the watermark's post |
| Scanner.ScanFromWatermark | insta_telegram_bot.py:112-113 | the running watermark never decreases and bounds every emitted id; it is either its starting value or one of the emitted ids; it is absent only if it started absent and nothing was emitted |
| Scanner.Scan | insta_telegram_bot.py:102-113 | the emitted posts are the longest watermark-free prefix; with no stored watermark the whole stream is emitted; the new watermark is absent exactly when none was stored and the stream is empty, and is never below the stored one |
| Scanner.FirstRunWatermarkIsMax | insta_telegram_bot.py:103-113 | with no stored watermark and a non-empty stream, the new watermark is the largest id in the stream |
| Scanner.WatermarkIsMaxOfOldAndSent | insta_telegram_bot.py:103-113 | with a stored watermark, the new one is the maximum of it and every emitted id |
| Scanner.ScanNothingNew | insta_telegram_bot.py:106-110 | an empty stream, or one whose first post is the watermark's, emits nothing and keeps the watermark |
| Scanner.SortedStreamStopsAtWatermark | insta_telegram_bot.py:106-113 | on a newest-first stream that contains the watermark's post, exactly the posts with a larger id are emitted, and the newest id becomes the watermark |
| Scanner.VanishedWatermarkReemitsAll | insta_telegram_bot.py:106-110 | when no post has the watermark's id, every visible post is emitted again |
| Scanner.RescanAtNewWatermark | insta_telegram_bot.py:102-113 | scanning the same stream again from the watermark a scan produced yields that same watermark, and emits only a prefix of what the first scan emitted |
| Scanner.RescanStopsAtEmitted | insta_telegram_bot.py:106-110 | scanning again from the id of any emitted post stops no later than that post, emitting a prefix of the first scan's posts |
| Caption.FormatCaption | insta_telegram_bot.py:116-120 | the caption is never longer than 1024 characters; header plus text is kept whole when it fits; otherwise its first 1020 characters are kept and followed by "...", 1023 characters in all |
| Caption.CaptionStartsWithHeader | insta_telegram_bot.py:118-120 | for a handle of at most 1000 characters the attribution header survives truncation as a prefix |
| Caption.ShortCaptionRecoversText | insta_telegram_bot.py:116-120 | a caption that fits loses nothing: removing the header gives back the post text |
| Media.SidecarItems | insta_telegram_bot.py:132-139 | the enumerate loop with its break after position 9 yields the first min(n, 10) nodes in order, each tagged by its own video flag |
| Media.BuildMedia | insta_telegram_bot.py:123-139 | a single-media post gives exactly one video or photo item; any other post gives its first min(n, 10) sidecar nodes in order; every item is a photo or a video and carries no caption yet |
| Media.FifteenNodesGiveTen | insta_telegram_bot.py:132-139 | a sidecar of fifteen nodes yields its first ten items; the other five are dropped |
| Telegram.Dispatch | insta_telegram_bot.py:54-83 | for more than one item, a media group in which only item 0 gains the caption and the HTML parse mode; for one item, sendPhoto or sendVideo by its type with the caption in HTML mode, or no request for any other type; an empty list is outside the function's domain |
| Telegram.CollectedMediaAlwaysSends | insta_telegram_bot.py:67-83 | items that are all photos or videos always lead to a request, never to the unknown-type return |
| Relay.RelayPost | insta_telegram_bot.py:115-142 | relaying a post raises exactly when it has no media (media count not 1 and no sidecar nodes); otherwise it makes a real request, and never a media group for a single-media post |
| Relay.RelayPostSendsFormattedPost | insta_telegram_bot.py:115-142 | the request carries the post's formatted caption: a single-media post, or a one-node sidecar, is sent as a photo or video with that caption in HTML mode; a sidecar of two or more nodes is sent as one media group of its first min(n, 10) nodes in order, the caption and HTML mode on the first item only |
| Relay.RelayAll | insta_telegram_bot.py:106-143 | posts are relayed in stream order, one request each; the loop is cut short exactly when some post has no media, and then it stops at the first such post, after the requests for the posts before it |
| Relay.Reconcile | insta_telegram_bot.py:146-147 | only the account's own entry may change; it changes only to a truthy watermark that differs from the stored one, and then it becomes that watermark |
| Relay.RunAccount | insta_telegram_bot.py:94-150 | a failed profile load sends nothing and keeps the state; a pass over a loaded profile aborts exactly when one of the posts its scan emits has no media, and an aborted pass has sent, in order, the requests of the emitted posts before the first one without media; a completed pass changes no other account, never lowers this account's watermark, and stores only a non-zero id; it makes at most one request per post |
| Relay.CompletedPassRelaysNewPosts | insta_telegram_bot.py:106-147 | a completed pass makes exactly one request per emitted post, in stream order, and stores the scan's watermark whenever it is truthy |
| Relay.RerunKeepsState | insta_telegram_bot.py:102-150 | for any stream, in any order, a second pass after a completed pass also completes and leaves the state exactly as the first pass left it |
| Relay.PassKeepingWatermark | insta_telegram_bot.py:106-150 | a pass whose scan ends at the stored watermark and meets no post without media completes and leaves the state unchanged |
| Relay.RerunSendsNothing | insta_telegram_bot.py:102-150 | on a newest-first stream with a non-zero newest id and a stored watermark not ahead of it, the first pass stores the newest id, and a second pass over the same stream sends nothing |
| Relay.PassReadsOwnEntryOnly | insta_telegram_bot.py:102-147 | a pass reads the state only through its own account's entry: two states that agree there give the same outcome, the same requests and the same new entry |
| Relay.PassLeavesOtherEntries | insta_telegram_bot.py:146-147 | a completed pass leaves the entry of every other account as it was |
| Relay.Run | insta_telegram_bot.py:94-150 | a completed run never lowers or removes a stored watermark, and leaves every account outside the list as it was |
| Relay.ListedAccountIsProcessed | insta_telegram_bot.py:94-150 | in a completed run, an account listed once has its own pass completed, and its final watermark is the one that pass computes from the initial state, whatever the other accounts do |
| Relay.RunCompletesIffEveryPassCompletes | insta_telegram_bot.py:94-150 | with every account listed once, a run completes exactly when each account's own pass, taken from the initial state, completes; a completed run sends the requests of those passes, in account order |
| Relay.RunAbortsAtFirstAbortingPass | insta_telegram_bot.py:94-150 | with every account listed once, a run aborts at the first account whose own pass aborts, after the requests of the passes before it in account order and the requests that pass made before raising |
| Relay.RunRerunKeepsState | insta_telegram_bot.py:94-157 | with every account listed once, running the whole list again over the same fetches after a completed run also completes and leaves the state exactly as the first run left it, so the state file written at the end is identical |
| Relay.PassAgainAfterRun | insta_telegram_bot.py:94-150 | after a completed run, each listed account's pass over the same fetch completes again and keeps that account's entry |
| Relay.FailedFetchNeverEndsRun | insta_telegram_bot.py:96-100 | a profile that cannot be loaded never ends the run: with every account listed once, the run completes exactly when the passes of all other accounts do |
| Relay.AgreeingStatesGiveSameRequests | insta_telegram_bot.py:94-102 | two states that agree on every listed account's entry give the listed accounts' passes the same requests, in order |
| Relay.FailedFetchKeepsWatermark | insta_telegram_bot.py:96-100 | an account listed once whose profile cannot be loaded keeps its stored watermark through a completed run, whatever happens to the other accounts |

## Left out

- Reading the environment and the `RuntimeError` for missing settings (lines 8-15): process configuration. The bot token and chat id, which every request carries, are therefore not part of `Telegram.Action`.
- Instaloader login and the session file (lines 20-36): foreign library calls and authentication I/O.
- Loading and saving `state.json`, including the fallback to an empty state on a JSON error (lines 38-48, 155-157): file I/O. The state is an in-memory `map<string, int>`. Non-integer or `null` values that a hand-edited file could hold are not modelled.
- `Profile.from_username` and `get_posts` (lines 97, 106): network access through a foreign library. Each account's fetch is an input; `None` stands for the exception caught at line 98. Exceptions raised while iterating posts are not caught by the code and are not modelled.
- The HTTP `requests.post` calls and the parsing and logging of responses (lines 60-63, 69-81, 84-91): network I/O. A response that is not JSON, or whose `ok` field is false, is only logged (lines 85-91) and changes no modelled result.
- An exception raised by `requests.post` itself (lines 60, 69, 76), such as a connection error, is not caught: it ends the script before the state file is written at line 156. The model does not have this abort. Every request in the model succeeds in being made, and `Aborted` comes only from the `IndexError` at line 66.
- A response body that parses as JSON but is not an object, such as `null` or a list, makes `result.get("ok")` at line 90 raise an `AttributeError`. Line 90 is outside the `try` of lines 85-89, so this also ends the script before the state file is written. The model does not include this abort either.
- All `print` diagnostics, including the final line 159. That line labels the number of state keys as "Posts sent"; it is logging only.
- Post ids are unbounded integers, as Python's are. The ordering the code relies on is plain integer comparison.

=== FILE: accounts.dfy ===
/**
 * Parsing the configured account list: commas become spaces, the string is
 * split on whitespace as Python's `str.split()` does, and each piece is
 * stripped.
 */
module Accounts {

  /** The characters Python's `str.isspace` accepts, which `split()` and `strip()` separate on. */
  predicate IsSpace(c: char) {
    || c == ' ' || c == '\t' || c == '\n' || c == '\r' || c == '\U{0B}' || c == '\U{0C}'
    || ('\U{1C}' <= c <= '\U{1F}') || c == '\U{85}' || c == '\U{A0}' || c == '\U{1680}'
    || ('\U{2000}' <= c <= '\U{200A}') || c == '\U{2028}' || c == '\U{2029}'
    || c == '\U{202F}' || c == '\U{205F}' || c == '\U{3000}'
  }

  /** Characters that separate account names in the configuration. */
  predicate IsSeparator(c: char) {
    c == ',' || IsSpace(c)
  }

  /** A token of `split()`: non-empty, with no whitespace. */
  predicate IsWord(t: string) {
    |t| > 0 && forall i :: 0 <= i < |t| ==> !IsSpace(t[i])
  }

  /** A well-formed account name: non-empty, with no comma and no whitespace. */
  predicate IsAccountName(t: string) {
    |t| > 0 && forall i :: 0 <= i < |t| ==> !IsSeparator(t[i])
  }

  /** `replace(",", " ")`. */
  function ReplaceCommas(s: string): (r: string)
    ensures |r| == |s|
    ensures forall i :: 0 <= i < |s| ==> r[i] == (if s[i] == ',' then ' ' else s[i])
  {
    if |s| == 0 then [] else [if s[0] == ',' then ' ' else s[0]] + ReplaceCommas(s[1..])
  }

  /** The characters of `s` that are not whitespace, in order. */
  function NonSpace(s: string): string {
    if |s| == 0 then [] else (if IsSpace(s[0]) then [] else [s[0]]) + NonSpace(s[1..])
  }

  /** The characters of `s` that are not separators, in order. */
  function NonSeparator(s: string): string {
    if |s| == 0 then [] else (if IsSeparator(s[0]) then [] else [s[0]]) + NonSeparator(s[1..])
  }

  /** All tokens joined end to end. */
  function Flatten(ts: seq<string>): string {
    if |ts| == 0 then [] else ts[0] + Flatten(ts[1..])
  }

  /** The length of the leading run of non-whitespace characters. */
  function WordLength(s: string): (n: nat)
    ensures n <= |s|
    ensures forall i :: 0 <= i < n ==> !IsSpace(s[i])
    ensures n == |s| || IsSpace(s[n])
  {
    if |s| == 0 || IsSpace(s[0]) then 0 else 1 + WordLength(s[1..])
  }

  lemma {:induction false} NonSpaceOfWord(s: string, n: nat)
    requires n <= |s|
    requires forall i :: 0 <= i < n ==> !IsSpace(s[i])
    ensures NonSpace(s) == s[..n] + NonSpace(s[n..])
    decreases n
  {
    if n > 0 {
      NonSpaceOfWord(s[1..], n - 1);
      assert s[1..][..n - 1] == s[1..n];
      assert s[1..][n - 1..] == s[n..];
      assert s[..n] == [s[0]] + s[1..n];
    }
  }

  /**
   * `str.split()` with no argument: maximal runs of non-whitespace, in order.
   * Every token is non-empty and whitespace-free.
   */
  function SplitWhitespace(s: string): (r: seq<string>)
    ensures forall i :: 0 <= i < |r| ==> IsWord(r[i])
    decreases |s|
  {
    if |s| == 0 then []
    else if IsSpace(s[0]) then SplitWhitespace(s[1..])
    else
      var n := WordLength(s);
      [s[..n]] + SplitWhitespace(s[n..])
  }

  /** Together the tokens of `split()` hold every non-whitespace character of the input, in order. */
  lemma {:induction false} SplitKeepsCharacters(s: string)
    ensures Flatten(SplitWhitespace(s)) == NonSpace(s)
    decreases |s|
  {
    if |s| > 0 {
      if IsSpace(s[0]) {
        SplitAtSpace(s);
        SplitKeepsCharacters(s[1..]);
      } else {
        var n := WordLength(s);
        var rest := SplitWhitespace(s[n..]);
        SplitAtWord(s);
        SplitKeepsCharacters(s[n..]);
        NonSpaceOfWord(s, n);
        assert ([s[..n]] + rest)[1..] == rest;
      }
    }
  }

  /** The number of whitespace characters at the start of `t`. */
  function LeadingSpaces(t: string): (n: nat)
    ensures n <= |t|
    ensures forall i :: 0 <= i < n ==> IsSpace(t[i])
    ensures n == |t| || !IsSpace(t[n])
  {
    if |t| == 0 || !IsSpace(t[0]) then 0 else 1 + LeadingSpaces(t[1..])
  }

  /** The end of `t` once its trailing whitespace is cut off. */
  function TrailingStart(t: string): (n: nat)
    ensures n <= |t|
    ensures forall i :: n <= i < |t| ==> IsSpace(t[i])
    ensures n == 0 || !IsSpace(t[n - 1])
  {
    if |t| == 0 || !IsSpace(t[|t| - 1]) then |t| else TrailingStart(t[..|t| - 1])
  }

  /**
   * `str.strip()`: the result is the part of `t` after its leading
   * whitespace, and everything of `t` after the result is whitespace; it
   * neither starts nor ends with whitespace. A whitespace-free string is
   * returned unchanged.
   */
  function Strip(t: string): (r: string)
    ensures LeadingSpaces(t) + |r| <= |t|
    ensures r == t[LeadingSpaces(t)..LeadingSpaces(t) + |r|]
    ensures forall i :: LeadingSpaces(t) + |r| <= i < |t| ==> IsSpace(t[i])
    ensures |r| > 0 ==> !IsSpace(r[0]) && !IsSpace(r[|r| - 1])
    ensures (forall i :: 0 <= i < |t| ==> !IsSpace(t[i])) ==> r == t
  {
    var a := LeadingSpaces(t);
    if a == |t| then []
    else
      var b := TrailingStart(t);
      assert a < b;
      t[a..b]
  }

  function StripAll(ts: seq<string>): (r: seq<string>)
    ensures |r| == |ts|
    ensures forall i :: 0 <= i < |ts| ==> r[i] == Strip(ts[i])
  {
    if |ts| == 0 then [] else [Strip(ts[0])] + StripAll(ts[1..])
  }

  lemma {:induction false} NonSpaceOfReplaced(s: string)
    ensures NonSpace(ReplaceCommas(s)) == NonSeparator(s)
    decreases |s|
  {
    if |s| > 0 {
      NonSpaceOfReplaced(s[1..]);
      assert ReplaceCommas(s)[1..] == ReplaceCommas(s[1..]);
    }
  }

  /**
   * The account list of line 17. Commas and whitespace both separate; no name
   * is empty or holds a separator; the names, joined, are exactly the
   * non-separator characters of the input in input order.
   */
  function ParseAccounts(s: string): (r: seq<string>)
    ensures forall i :: 0 <= i < |r| ==> IsAccountName(r[i])
    ensures Flatten(r) == NonSeparator(s)
  {
    var replaced := ReplaceCommas(s);
    var words := SplitWhitespace(replaced);
    SplitKeepsCharacters(replaced);
    NonSpaceOfReplaced(s);
    var r := StripAll(words);
    assert r == words;
    assert forall i :: 0 <= i < |r| ==> IsAccountName(r[i]) by {
      forall i | 0 <= i < |r|
        ensures IsAccountName(r[i])
      {
        FlattenHoldsToken(words, i);
        NonSeparatorHasNoSeparator(s, Flatten(words));
        forall j | 0 <= j < |r[i]|
          ensures !IsSeparator(r[i][j])
        {
          assert r[i][j] == Flatten(words)[Offset(words, i) + j];
        }
      }
    }
    r
  }

  /** Where token `i` starts within the flattened tokens. */
  function Offset(ts: seq<string>, i: nat): (o: nat)
    requires i <= |ts|
  {
    if i == 0 then 0 else |ts[0]| + Offset(ts[1..], i - 1)
  }

  lemma {:induction false} FlattenHoldsToken(ts: seq<string>, i: nat)
    requires i < |ts|
    ensures Offset(ts, i) + |ts[i]| <= |Flatten(ts)|
    ensures forall j :: 0 <= j < |ts[i]| ==> Flatten(ts)[Offset(ts, i) + j] == ts[i][j]
    decreases i
  {
    if i > 0 {
      FlattenHoldsToken(ts[1..], i - 1);
    }
  }

  lemma {:induction false} NonSeparatorHasNoSeparator(s: string, f: string)
    requires f == NonSeparator(s)
    ensures forall j :: 0 <= j < |f| ==> !IsSeparator(f[j])
    decreases |s|
  {
    if |s| > 0 {
      NonSeparatorHasNoSeparator(s[1..], NonSeparator(s[1..]));
    }
  }

  /** Names joined by a single separator character. */
  function JoinWith(ts: seq<string>, sep: char): string {
    if |ts| == 0 then []
    else if |ts| == 1 then ts[0]
    else ts[0] + [sep] + JoinWith(ts[1..], sep)
  }

  /**
   * Parsing inverts joining: well-formed names joined by a comma or any
   * whitespace character parse back to the same names, in the same order.
   */
  lemma {:induction false} ParseJoinRoundTrip(ts: seq<string>, sep: char)
    requires forall i :: 0 <= i < |ts| ==> IsAccountName(ts[i])
    requires IsSeparator(sep)
    ensures ParseAccounts(JoinWith(ts, sep)) == ts
    decreases |ts|
  {
    if |ts| == 0 {
      ParseOfSeparators([]);
    } else if |ts| == 1 {
      ParseOfName(ts[0]);
    } else {
      var tail := ts[1..];
      var rest := JoinWith(tail, sep);
      assert JoinWith(ts, sep) == ts[0] + [sep] + rest;
      assert IsAccountName(ts[0]);
      ParseNameThenSeparator(ts[0], sep, rest);
      assert forall i :: 0 <= i < |tail| ==> tail[i] == ts[i + 1];
      ParseJoinRoundTrip(tail, sep);
      assert [ts[0]] + tail == ts;
    }
  }

  /** A name followed by a separator is split off as the first name. */
  lemma ParseNameThenSeparator(t: string, sep: char, rest: string)
    requires IsAccountName(t)
    requires IsSeparator(sep)
    ensures ParseAccounts(t + [sep] + rest) == [t] + ParseAccounts(rest)
  {
    assert IsSeparatorRun([sep]);
    ParseAtSeparatorRun(t, [sep], rest);
    ParseOfName(t);
  }

  lemma ReplaceCommasAppend(a: string, b: string)
    ensures ReplaceCommas(a + b) == ReplaceCommas(a) + ReplaceCommas(b)
  {
  }

  lemma ReplaceCommasOfName(t: string)
    requires IsAccountName(t)
    ensures ReplaceCommas(t) == t
  {
  }

  /** A whole word followed by `rest` splits off as the first token. */
  lemma {:induction false} SplitOfWord(t: string, rest: string)
    requires IsWord(t)
    requires |rest| == 0 || IsSpace(rest[0])
    ensures SplitWhitespace(t + rest) == [t] + SplitWhitespace(rest)
  {
    var w := t + rest;
    assert w[..|t|] == t;
    assert w[|t|..] == rest;
    assert WordLength(w) == |t| by {
      var n := WordLength(w);
      assert forall i :: 0 <= i < |t| ==> w[i] == t[i] && !IsSpace(w[i]);
    }
  }

  /** A whitespace-free string on its own is a single token of `split()`. */
  lemma SplitOfSingleWord(t: string)
    requires IsWord(t)
    ensures SplitWhitespace(t) == [t]
  {
    SplitOfWord(t, []);
    assert t + [] == t;
  }

  /** A non-empty run of characters that are all whitespace. */
  predicate IsSpaceRun(g: string) {
    |g| > 0 && forall i :: 0 <= i < |g| ==> IsSpace(g[i])
  }

  /** A non-empty run of characters that are all commas or whitespace. */
  predicate IsSeparatorRun(g: string) {
    |g| > 0 && forall i :: 0 <= i < |g| ==> IsSeparator(g[i])
  }

  /** The length of the leading word only depends on the text up to the first whitespace. */
  lemma WordLengthIsFirstSpace(s: string, n: nat)
    requires n <= |s|
    requires forall i :: 0 <= i < n ==> !IsSpace(s[i])
    requires n == |s| || IsSpace(s[n])
    ensures WordLength(s) == n
  {
  }

  /** One unfolding of `split()` at a whitespace character. */
  lemma SplitAtSpace(s: string)
    requires |s| > 0 && IsSpace(s[0])
    ensures SplitWhitespace(s) == SplitWhitespace(s[1..])
  {
  }

  /** One unfolding of `split()` at the start of a word. */
  lemma SplitAtWord(s: string)
    requires |s| > 0 && !IsSpace(s[0])
    ensures SplitWhitespace(s) == [s[..WordLength(s)]] + SplitWhitespace(s[WordLength(s)..])
  {
  }

  /** Leading whitespace is skipped by `split()`. */
  lemma {:induction false} SplitSkipsLeadingSpace(g: string, b: string)
    requires forall i :: 0 <= i < |g| ==> IsSpace(g[i])
    ensures SplitWhitespace(g + b) == SplitWhitespace(b)
    decreases |g|
  {
    if |g| == 0 {
      assert g + b == b;
    } else {
      assert (g + b)[0] == g[0];
      SplitAtSpace(g + b);
      assert (g + b)[1..] == g[1..] + b;
      SplitSkipsLeadingSpace(g[1..], b);
    }
  }

  /** A string of whitespace only splits into no tokens. */
  lemma SplitOfSpaces(g: string)
    requires forall i :: 0 <= i < |g| ==> IsSpace(g[i])
    ensures SplitWhitespace(g) == []
  {
    SplitSkipsLeadingSpace(g, []);
    assert g + [] == g;
  }

  /**
   * Any non-empty run of whitespace ends a token: the text before the run
   * and the text after it split independently, and nothing is glued across it.
   */
  lemma {:induction false} SplitAtSpaceRun(a: string, g: string, b: string)
    requires IsSpaceRun(g)
    ensures SplitWhitespace(a + g + b) == SplitWhitespace(a) + SplitWhitespace(b)
    decreases |a|, 2
  {
    if |a| == 0 {
      assert a + g + b == g + b;
      SplitSkipsLeadingSpace(g, b);
    } else if IsSpace(a[0]) {
      SplitAtSpaceBeforeRun(a, g, b);
    } else {
      SplitAtWordBeforeRun(a, g, b);
    }
  }

  /** The whitespace case of `SplitAtSpaceRun`: a leading space of `a` is skipped on both sides. */
  lemma {:induction false} SplitAtSpaceBeforeRun(a: string, g: string, b: string)
    requires IsSpaceRun(g)
    requires |a| > 0 && IsSpace(a[0])
    ensures SplitWhitespace(a + g + b) == SplitWhitespace(a) + SplitWhitespace(b)
    decreases |a|, 1
  {
    var s := a + g + b;
    assert s[0] == a[0];
    SplitAtSpace(s);
    SplitAtSpace(a);
    assert s[1..] == a[1..] + g + b;
    SplitAtSpaceRun(a[1..], g, b);
  }

  /** The word case of `SplitAtSpaceRun`: the word ends inside `a` or exactly where the run begins. */
  lemma {:induction false} SplitAtWordBeforeRun(a: string, g: string, b: string)
    requires IsSpaceRun(g)
    requires |a| > 0 && !IsSpace(a[0])
    ensures SplitWhitespace(a + g + b) == SplitWhitespace(a) + SplitWhitespace(b)
    decreases |a|, 1
  {
    if WordLength(a) < |a| {
      SplitWordInside(a, g, b);
    } else {
      SplitWordUpToRun(a, g, b);
    }
  }

  /** A word that ends inside `a` ends at the same place in any extension of `a`. */
  lemma WordLengthOfExtension(a: string, x: string)
    requires WordLength(a) < |a|
    ensures WordLength(a + x) == WordLength(a)
  {
    var m := WordLength(a);
    assert forall i :: 0 <= i <= m ==> (a + x)[i] == a[i];
    WordLengthIsFirstSpace(a + x, m);
  }

  /** A word that ends inside `a` is split off `a` extended by anything. */
  lemma SplitWordOfExtension(a: string, x: string)
    requires |a| > 0 && !IsSpace(a[0]) && WordLength(a) < |a|
    ensures var m := WordLength(a);
      SplitWhitespace(a + x) == [a[..m]] + SplitWhitespace(a[m..] + x)
  {
    var s := a + x;
    var m := WordLength(a);
    WordLengthOfExtension(a, x);
    assert s[0] == a[0];
    SplitAtWord(s);
    assert s[..m] == a[..m];
    assert s[m..] == a[m..] + x;
  }

  lemma {:induction false} SplitWordInside(a: string, g: string, b: string)
    requires IsSpaceRun(g)
    requires |a| > 0 && !IsSpace(a[0]) && WordLength(a) < |a|
    ensures SplitWhitespace(a + g + b) == SplitWhitespace(a) + SplitWhitespace(b)
    decreases |a|, 0
  {
    var m := WordLength(a);
    SplitWordOfExtension(a, g + b);
    assert a + g + b == a + (g + b) && a[m..] + (g + b) == a[m..] + g + b;
    assert SplitWhitespace(a) == [a[..m]] + SplitWhitespace(a[m..]) by {
      SplitAtWord(a);
    }
    SplitAtSpaceRun(a[m..], g, b);
    assert [a[..m]] + (SplitWhitespace(a[m..]) + SplitWhitespace(b))
        == ([a[..m]] + SplitWhitespace(a[m..])) + SplitWhitespace(b);
  }

  lemma SplitWordUpToRun(a: string, g: string, b: string)
    requires IsSpaceRun(g)
    requires |a| > 0 && !IsSpace(a[0]) && WordLength(a) == |a|
    ensures SplitWhitespace(a + g + b) == SplitWhitespace(a) + SplitWhitespace(b)
  {
    var s := a + g + b;
    assert forall i :: 0 <= i < |a| ==> s[i] == a[i];
    assert s[|a|] == g[0];
    WordLengthIsFirstSpace(s, |a|);
    SplitAtWord(s);
    assert s[..|a|] == a;
    assert s[|a|..] == g + b;
    SplitSkipsLeadingSpace(g, b);
    SplitAtWord(a);
    assert a[..|a|] == a;
    assert a[|a|..] == [];
    assert SplitWhitespace(a) == [a];
  }

  /** Parsing is splitting on whitespace after commas have become spaces. */
  lemma ParseIsSplitOfReplaced(s: string)
    ensures ParseAccounts(s) == SplitWhitespace(ReplaceCommas(s))
  {
  }

  /** A separator run becomes a whitespace run once commas are replaced. */
  lemma ReplacedSeparatorRun(g: string)
    requires IsSeparatorRun(g)
    ensures IsSpaceRun(ReplaceCommas(g))
  {
  }

  /**
   * Any non-empty run of commas and whitespace, such as ", " or ",,", ends an
   * account name: the text on either side parses independently.
   */
  lemma ParseAtSeparatorRun(a: string, g: string, b: string)
    requires IsSeparatorRun(g)
    ensures ParseAccounts(a + g + b) == ParseAccounts(a) + ParseAccounts(b)
  {
    ReplaceCommasAppend(a + g, b);
    ReplaceCommasAppend(a, g);
    ReplacedSeparatorRun(g);
    SplitAtSpaceRun(ReplaceCommas(a), ReplaceCommas(g), ReplaceCommas(b));
    ParseIsSplitOfReplaced(a + g + b);
    ParseIsSplitOfReplaced(a);
    ParseIsSplitOfReplaced(b);
  }

  /** A string of separators only holds no account names. */
  lemma ParseOfSeparators(g: string)
    requires forall i :: 0 <= i < |g| ==> IsSeparator(g[i])
    ensures ParseAccounts(g) == []
  {
    ParseIsSplitOfReplaced(g);
    SplitOfSpaces(ReplaceCommas(g));
  }

  /** A well-formed name on its own parses to exactly that name. */
  lemma ParseOfName(t: string)
    requires IsAccountName(t)
    ensures ParseAccounts(t) == [t]
  {
    ParseIsSplitOfReplaced(t);
    ReplaceCommasOfName(t);
    SplitOfWord(t, []);
    assert t + [] == t;
  }

  /** The usual way of writing the list, a comma and a space between names, gives the names back. */
  lemma CommaSpaceSeparates(x: string, y: string)
    requires IsAccountName(x) && IsAccountName(y)
    ensures ParseAccounts(x + ", " + y) == [x, y]
  {
    var g := ", ";
    assert IsSeparatorRun(g) by {
      assert IsSeparator(g[0]) && IsSeparator(g[1]);
    }
    ParseAtSeparatorRun(x, g, y);
    ParseOfName(x);
    ParseOfName(y);
  }
}

=== FILE: caption.dfy ===
/**
 * Caption construction: an attribution header naming the account, then the
 * post's own text, cut to fit Telegram's caption limit.
 */
module Caption {
  import opened Wrappers

  /** Telegram's caption limit, in characters. */
  const MaxCaptionLength: nat := 1024
  /** How many characters of an over-long caption are kept before the marker. */
  const KeptLength: nat := 1020
  const Ellipsis: string := "..."

  /** The attribution line, `<b>Instagram: @name</b>` followed by a newline. */
  function Header(username: string): (h: string)
    ensures |h| == |username| + 20
  {
    "<b>Instagram: @" + username + "</b>\n"
  }

  /**
   * The caption sent with a post (an absent caption counts as empty text).
   * It never exceeds the limit; a caption within the limit is kept whole,
   * and a longer one keeps its first 1020 characters followed by "...".
   */
  function FormatCaption(username: string, text: Option<string>): (r: string)
    ensures |r| <= MaxCaptionLength
    ensures var full := Header(username) + text.GetOr("");
      if |full| <= MaxCaptionLength then r == full
      else |r| == 1023 && r[..KeptLength] == full[..KeptLength] && r[KeptLength..] == Ellipsis
  {
    // `post.caption or ""` at line 116: with "" as the default, an empty caption
    // and an absent one both give "", so `GetOr("")` agrees with Python's `or`.
    var caption := Header(username) + text.GetOr("");
    if |caption| > MaxCaptionLength then caption[..KeptLength] + Ellipsis else caption
  }

  /**
   * The attribution survives truncation whenever the header itself fits in
   * the kept part, which holds for every handle of up to 1000 characters.
   */
  lemma CaptionStartsWithHeader(username: string, text: Option<string>)
    requires |username| <= 1000
    ensures Header(username) <= FormatCaption(username, text)
  {
  }

  /**
   * A caption within the limit loses nothing: dropping the header gives back
   * the post's text exactly.
   */
  lemma ShortCaptionRecoversText(username: string, text: string)
    requires |Header(username)| + |text| <= MaxCaptionLength
    ensures FormatCaption(username, Some(text))[|Header(username)|..] == text
  {
  }
}

=== FILE: instagram.dfy ===
/**
 * The part of an Instagram post the relay reads. Posts come from the
 * source platform and are never built or changed by the relay itself.
 */
module Instagram {
  import opened Wrappers

  /** One element of a multi-media ("sidecar") post. */
  datatype SidecarNode = SidecarNode(isVideo: bool, videoUrl: string, displayUrl: string)

  /**
   * A post as seen through the scraping library: its numeric id, optional
   * caption, media count, whether the single medium is a video, the two URLs
   * of a single-media post, and the nodes of a sidecar post.
   */
  datatype Post = Post(
    mediaid: int,
    caption: Option<string>,
    mediacount: int,
    isVideo: bool,
    videoUrl: string,
    url: string,
    sidecar: seq<SidecarNode>
  )

  /** The ids of a post stream, in stream order. */
  function Ids(posts: seq<Post>): (ids: seq<int>)
    ensures |ids| == |posts|
    ensures forall i :: 0 <= i < |posts| ==> ids[i] == posts[i].mediaid
  {
    if |posts| == 0 then [] else [posts[0].mediaid] + Ids(posts[1..])
  }

  /** The largest element of a non-empty sequence of ids. */
  function MaxOf(xs: seq<int>): (m: int)
    requires |xs| > 0
    ensures m in xs
    ensures forall i :: 0 <= i < |xs| ==> xs[i] <= m
  {
    if |xs| == 1 then xs[0]
    else
      var rest := MaxOf(xs[1..]);
      if xs[0] > rest then xs[0] else rest
  }

  /**
   * A stream is newest-first when ids strictly decrease along it, which is
   * what the source platform delivers if ids grow in publish order.
   */
  predicate NewestFirst(posts: seq<Post>) {
    forall i, j :: 0 <= i < j < |posts| ==> posts[i].mediaid > posts[j].mediaid
  }
}

=== FILE: media.dfy ===
/**
 * Collecting the media of a post into Telegram input items: one item for a
 * single-media post, at most ten for a sidecar post.
 */
module Media {
  import opened Wrappers
  import opened Instagram

  const PhotoType: string := "photo"
  const VideoType: string := "video"
  /** Telegram's media-group limit. */
  const MaxGroupSize: nat := 10

  /**
   * A Telegram input item: its `type`, the `media` URL, and the `caption` and
   * `parse_mode` fields that dispatch may add.
   */
  datatype MediaItem = MediaItem(kind: string, media: string, caption: Option<string>, parseMode: Option<string>)

  /** A fresh item with neither caption nor parse mode. */
  function Item(kind: string, media: string): MediaItem {
    MediaItem(kind, media, None, None)
  }

  /** The item for one sidecar node: a video by its video URL, else a photo by its display URL. */
  function NodeItem(n: SidecarNode): MediaItem {
    if n.isVideo then Item(VideoType, n.videoUrl) else Item(PhotoType, n.displayUrl)
  }

  /** The item for a single-media post: a video by its video URL, else a photo by its URL. */
  function SingleItem(p: Post): MediaItem {
    if p.isVideo then Item(VideoType, p.videoUrl) else Item(PhotoType, p.url)
  }

  function Min(a: int, b: int): int {
    if a <= b then a else b
  }

  /**
   * The enumerate loop over sidecar nodes from position `idx` on: each node is
   * appended, and the loop stops after appending the node at position 9.
   * The result is the nodes up to position 9, in order.
   */
  function SidecarItems(nodes: seq<SidecarNode>, idx: nat): (r: seq<MediaItem>)
    requires idx < MaxGroupSize
    ensures |r| == Min(|nodes|, MaxGroupSize - idx)
    ensures forall i :: 0 <= i < |r| ==> r[i] == NodeItem(nodes[i])
    decreases |nodes|
  {
    if |nodes| == 0 then []
    else
      var item := NodeItem(nodes[0]);
      if idx >= MaxGroupSize - 1 then [item]
      else [item] + SidecarItems(nodes[1..], idx + 1)
  }

  /**
   * The media of a post. A post with media count 1 gives exactly its single
   * item; any other post gives its first min(n, 10) sidecar nodes in order,
   * each tagged by its own video flag. No item carries a caption yet, and every
   * item is a photo or a video.
   */
  function BuildMedia(p: Post): (r: seq<MediaItem>)
    ensures p.mediacount == 1 ==> r == [SingleItem(p)]
    ensures p.mediacount != 1 ==> |r| == Min(|p.sidecar|, MaxGroupSize)
    ensures p.mediacount != 1 ==> forall i :: 0 <= i < |r| ==> r[i] == NodeItem(p.sidecar[i])
    ensures forall i :: 0 <= i < |r| ==> r[i].kind in {PhotoType, VideoType} && r[i].caption.None? && r[i].parseMode.None?
    ensures |r| <= MaxGroupSize
  {
    if p.mediacount == 1 then [SingleItem(p)] else SidecarItems(p.sidecar, 0)
  }

  /** A sidecar of fifteen nodes yields exactly its first ten; the other five are dropped. */
  lemma FifteenNodesGiveTen(p: Post)
    requires p.mediacount != 1 && |p.sidecar| == 15
    ensures BuildMedia(p) == seq(10, i requires 0 <= i < 10 => NodeItem(p.sidecar[i]))
  {
  }
}

=== FILE: relay.dfy ===
/**
 * The main loop: for each configured account, scan its posts, relay every
 * new post to Telegram, and reconcile the account's stored watermark. The
 * state is the in-memory map from username to last processed post id.
 */
module Relay {
  import opened Wrappers
  import opened Instagram
  import opened Scanner
  import Caption
  import Media
  import opened Telegram

  type State = map<string, int>

  /** What relaying one post does: a Bot API request, or the IndexError of an empty media list. */
  datatype PostOutcome = Request(action: Action) | IndexError

  /** A post from which no media item is collected: media count other than 1 and no sidecar nodes. */
  predicate HasNoMedia(p: Post) {
    p.mediacount != 1 && |p.sidecar| == 0
  }

  /** The single-item request for one medium, with the caption in HTML mode. */
  function SingleSend(isVideo: bool, videoUrl: string, photoUrl: string, caption: string): Action {
    if isVideo then SendVideo(videoUrl, caption, HtmlMode) else SendPhoto(photoUrl, caption, HtmlMode)
  }

  /**
   * One post: its caption and media are built and dispatched. A post with no
   * media makes the dispatch index an empty list, which raises; any other post
   * leads to a real request, and a single-media post is never sent as a group.
   */
  function RelayPost(username: string, p: Post): (r: PostOutcome)
    ensures r.IndexError? <==> HasNoMedia(p)
    ensures r.Request? ==> !r.action.NoRequest?
    ensures r.Request? && p.mediacount == 1 ==> !r.action.SendMediaGroup?
  {
    var caption := Caption.FormatCaption(username, p.caption);
    var media := Media.BuildMedia(p);
    if |media| == 0 then IndexError
    else
      CollectedMediaAlwaysSends(caption, media);
      Request(Dispatch(caption, media))
  }

  /**
   * The request made for a post carries its formatted caption and its media.
   * A single-media post, or a sidecar of one node, is sent as a photo or video
   * with the caption; a sidecar of two or more nodes is sent as one media
   * group of its first ten nodes, the caption on the first only.
   */
  lemma RelayPostSendsFormattedPost(username: string, p: Post)
    ensures var r := RelayPost(username, p);
      var caption := Caption.FormatCaption(username, p.caption);
      && (p.mediacount == 1 ==>
            r == Request(SingleSend(p.isVideo, p.videoUrl, p.url, caption)))
      && (p.mediacount != 1 && |p.sidecar| == 1 ==>
            var n := p.sidecar[0];
            r == Request(SingleSend(n.isVideo, n.videoUrl, n.displayUrl, caption)))
      && (p.mediacount != 1 && |p.sidecar| >= 2 ==>
            && r.Request? && r.action.SendMediaGroup?
            && |r.action.media| == Media.Min(|p.sidecar|, Media.MaxGroupSize)
            && r.action.media[0] == Media.NodeItem(p.sidecar[0]).(caption := Some(caption), parseMode := Some(HtmlMode))
            && forall i :: 1 <= i < |r.action.media| ==> r.action.media[i] == Media.NodeItem(p.sidecar[i]))
  {
  }

  /** The requests sent for a run of posts, and whether the run was cut short by an IndexError. */
  datatype Relayed = Relayed(requests: seq<Action>, crashed: bool)

  /**
   * Posts are relayed in stream order. Without a crash there is one request
   * per post; a crash stops at the first post without media, after the
   * requests of the posts before it, and happens exactly when some post has
   * no media.
   */
  function RelayAll(username: string, posts: seq<Post>): (r: Relayed)
    ensures |r.requests| <= |posts|
    ensures forall i :: 0 <= i < |r.requests| ==> RelayPost(username, posts[i]) == Request(r.requests[i])
    ensures !r.crashed <==> |r.requests| == |posts|
    ensures r.crashed ==> HasNoMedia(posts[|r.requests|])
    ensures r.crashed <==> exists i :: 0 <= i < |posts| && HasNoMedia(posts[i])
  {
    if |posts| == 0 then Relayed([], false)
    else
      match RelayPost(username, posts[0])
      case IndexError => Relayed([], true)
      case Request(a) =>
        var rest := RelayAll(username, posts[1..]);
        RelayAllStep(username, posts, a, rest);
        Relayed([a] + rest.requests, rest.crashed)
  }

  /** The step of `RelayAll`: a first post that leads to a request, then the rest relayed as stated. */
  lemma RelayAllStep(username: string, posts: seq<Post>, a: Action, rest: Relayed)
    requires |posts| > 0 && RelayPost(username, posts[0]) == Request(a)
    requires |rest.requests| <= |posts| - 1
    requires forall i :: 0 <= i < |rest.requests| ==> RelayPost(username, posts[1..][i]) == Request(rest.requests[i])
    requires !rest.crashed <==> |rest.requests| == |posts| - 1
    requires rest.crashed ==> HasNoMedia(posts[1..][|rest.requests|])
    requires rest.crashed <==> exists i :: 0 <= i < |posts| - 1 && HasNoMedia(posts[1..][i])
    ensures var r := Relayed([a] + rest.requests, rest.crashed);
      && |r.requests| <= |posts|
      && (forall i :: 0 <= i < |r.requests| ==> RelayPost(username, posts[i]) == Request(r.requests[i]))
      && (!r.crashed <==> |r.requests| == |posts|)
      && (r.crashed ==> HasNoMedia(posts[|r.requests|]))
      && (r.crashed <==> exists i :: 0 <= i < |posts| && HasNoMedia(posts[i]))
  {
    var r := Relayed([a] + rest.requests, rest.crashed);
    forall i | 0 <= i < |r.requests|
      ensures RelayPost(username, posts[i]) == Request(r.requests[i])
    {
      if i > 0 {
        assert r.requests[i] == rest.requests[i - 1];
        assert posts[i] == posts[1..][i - 1];
      }
    }
    assert !HasNoMedia(posts[0]);
    if rest.crashed {
      var i :| 0 <= i < |posts| - 1 && HasNoMedia(posts[1..][i]);
      assert posts[1..][i] == posts[i + 1];
      assert posts[1..][|rest.requests|] == posts[|r.requests|];
    } else if i :| 0 <= i < |posts| && HasNoMedia(posts[i]) {
      assert false;
    }
  }

  /**
   * The end of one account's pass, or of the whole run: either it completed
   * with a state and the requests sent, or the uncaught `IndexError` of an
   * empty media list aborted the script after the requests sent so far (the
   * state file is then not written).
   */
  datatype Outcome = Completed(state: State, requests: seq<Action>) | Aborted(requests: seq<Action>)

  /** The stored watermark of an account, if any. */
  function Lookup(state: State, username: string): Option<int> {
    if username in state then Some(state[username]) else None
  }

  /** Python truthiness of an optional id: present and non-zero. */
  predicate Truthy(id: Option<int>) {
    id.Some? && id.value != 0
  }

  /**
   * The write-back of lines 146-147: only this account's entry may change, and
   * only to a truthy watermark different from the stored one.
   */
  function Reconcile(state: State, username: string, newLast: Option<int>): (s: State)
    ensures s - {username} == state - {username}
    ensures s != state ==> Truthy(newLast) && newLast != Lookup(state, username)
    ensures Truthy(newLast) && newLast != Lookup(state, username) ==> Lookup(s, username) == newLast
    ensures username !in s ==> username !in state
  {
    if Truthy(newLast) && newLast != Lookup(state, username) then state[username := newLast.value]
    else state
  }

  /**
   * One account's pass (lines 96-150). A failed profile load leaves the state
   * alone and sends nothing; otherwise the new posts are relayed in order and
   * the watermark reconciled. The pass aborts exactly when one of the new
   * posts has no media, after sending the requests of the posts before the
   * first such post. Only this account's entry can change, and its stored
   * watermark never decreases.
   */
  function RunAccount(state: State, username: string, fetched: Option<seq<Post>>): (r: Outcome)
    ensures fetched.None? ==> r == Completed(state, [])
    ensures r.Completed? ==> r.state - {username} == state - {username}
    ensures r.Completed? && username in state ==> username in r.state && state[username] <= r.state[username]
    ensures r.Completed? && r.state != state ==> username in r.state && r.state[username] != 0
    ensures fetched.Some? ==> |r.requests| <= |fetched.value|
    ensures fetched.Some? ==>
      var sent := Scan(fetched.value, Lookup(state, username)).sent;
      (r.Aborted? <==> exists i :: 0 <= i < |sent| && HasNoMedia(sent[i]))
    ensures fetched.Some? && r.Aborted? ==>
      var sent := Scan(fetched.value, Lookup(state, username)).sent;
      && |r.requests| < |sent| && HasNoMedia(sent[|r.requests|])
      && forall i :: 0 <= i < |r.requests| ==> RelayPost(username, sent[i]) == Request(r.requests[i])
  {
    match fetched
    case None => Completed(state, [])
    case Some(posts) =>
      var last := Lookup(state, username);
      var scan := Scan(posts, last);
      var relayed := RelayAll(username, scan.sent);
      if relayed.crashed then Aborted(relayed.requests)
      else Completed(Reconcile(state, username, scan.newLast), relayed.requests)
  }

  /**
   * A completed pass sends exactly one request per new post, in stream order,
   * and stores the scan's watermark whenever it is truthy and new.
   */
  lemma CompletedPassRelaysNewPosts(state: State, username: string, posts: seq<Post>)
    requires RunAccount(state, username, Some(posts)).Completed?
    ensures var r := RunAccount(state, username, Some(posts));
      var scan := Scan(posts, Lookup(state, username));
      && |r.requests| == |scan.sent|
      && (forall i :: 0 <= i < |scan.sent| ==> RelayPost(username, scan.sent[i]) == Request(r.requests[i]))
      && (Truthy(scan.newLast) ==> Lookup(r.state, username) == scan.newLast)
  {
  }

  /**
   * Re-running a completed pass over the same stream completes too and leaves
   * the state exactly as the first pass left it, whatever the order of the
   * stream: the stored watermark is the old one or an id the first pass
   * emitted, so the second scan stops no later than the first and finds
   * nothing larger.
   */
  lemma RerunKeepsState(state: State, username: string, posts: seq<Post>)
    requires RunAccount(state, username, Some(posts)).Completed?
    ensures var first := RunAccount(state, username, Some(posts));
      var second := RunAccount(first.state, username, Some(posts));
      second.Completed? && second.state == first.state
  {
    var first := RunAccount(state, username, Some(posts));
    var scan1 := Scan(posts, Lookup(state, username));
    if first.state != state {
      RerunAfterWrite(state, username, posts);
    }
  }

  /** The case of `RerunKeepsState` in which the first pass wrote a new watermark. */
  lemma RerunAfterWrite(state: State, username: string, posts: seq<Post>)
    requires RunAccount(state, username, Some(posts)).Completed?
    requires RunAccount(state, username, Some(posts)).state != state
    ensures var first := RunAccount(state, username, Some(posts));
      var second := RunAccount(first.state, username, Some(posts));
      second.Completed? && second.state == first.state
  {
    var first := RunAccount(state, username, Some(posts));
    WrittenPassFacts(state, username, posts);
    RescanMeetsNoMedialessPost(posts, Lookup(state, username));
    PassKeepingWatermark(first.state, username, posts);
  }

  /**
   * Scanning again from the watermark a scan produced stops at that watermark
   * and emits only posts the first scan emitted.
   */
  lemma RescanMeetsNoMedialessPost(posts: seq<Post>, last: Option<int>)
    requires Scan(posts, last).newLast.Some?
    requires !exists k :: 0 <= k < |Scan(posts, last).sent| && HasNoMedia(Scan(posts, last).sent[k])
    ensures var w := Scan(posts, last).newLast;
      && Scan(posts, w).newLast == w
      && !exists k :: 0 <= k < |Scan(posts, w).sent| && HasNoMedia(Scan(posts, w).sent[k])
  {
    var scan1 := Scan(posts, last);
    var scan2 := Scan(posts, scan1.newLast);
    RescanAtNewWatermark(posts, last);
    assert forall k :: 0 <= k < |scan2.sent| ==> scan2.sent[k] == scan1.sent[k];
  }

  /**
   * A completed pass that changed the state stored its scan's watermark, and
   * its scan met no post without media.
   */
  lemma WrittenPassFacts(state: State, username: string, posts: seq<Post>)
    requires RunAccount(state, username, Some(posts)).Completed?
    requires RunAccount(state, username, Some(posts)).state != state
    ensures var scan := Scan(posts, Lookup(state, username));
      && scan.newLast.Some?
      && Lookup(RunAccount(state, username, Some(posts)).state, username) == scan.newLast
      && !exists k :: 0 <= k < |scan.sent| && HasNoMedia(scan.sent[k])
  {
  }

  /**
   * A pass whose scan meets no post without media and ends at the stored
   * watermark completes without changing the state.
   */
  lemma PassKeepingWatermark(s: State, username: string, posts: seq<Post>)
    requires Scan(posts, Lookup(s, username)).newLast == Lookup(s, username)
    requires !exists k :: 0 <= k < |Scan(posts, Lookup(s, username)).sent| && HasNoMedia(Scan(posts, Lookup(s, username)).sent[k])
    ensures RunAccount(s, username, Some(posts)) == Completed(s, RunAccount(s, username, Some(posts)).requests)
  {
  }

  /**
   * On a newest-first stream with a non-zero newest id, whose stored
   * watermark is not ahead of it, a completed pass stores the newest id, so a
   * second pass over the same stream sends nothing.
   */
  lemma RerunSendsNothing(state: State, username: string, posts: seq<Post>)
    requires NewestFirst(posts) && |posts| > 0 && posts[0].mediaid != 0
    requires username in state ==> state[username] <= posts[0].mediaid
    requires RunAccount(state, username, Some(posts)).Completed?
    ensures var first := RunAccount(state, username, Some(posts));
      && Lookup(first.state, username) == Some(posts[0].mediaid)
      && RunAccount(first.state, username, Some(posts)) == Completed(first.state, [])
  {
  }

  /**
   * A pass reads the state only through its own account's entry: two states
   * that agree on it give the same outcome, the same requests and the same
   * new entry.
   */
  lemma PassReadsOwnEntryOnly(s1: State, s2: State, username: string, fetched: Option<seq<Post>>)
    requires Lookup(s1, username) == Lookup(s2, username)
    ensures var r1 := RunAccount(s1, username, fetched);
      var r2 := RunAccount(s2, username, fetched);
      && r1.Completed? == r2.Completed?
      && r1.requests == r2.requests
      && (r1.Completed? ==> Lookup(r1.state, username) == Lookup(r2.state, username))
  {
  }

  /**
   * The whole run: accounts are processed in configuration order, each with
   * its own fetch result, the state threading through. The first abort stops
   * the run. A completed run changes no account outside the list and never
   * lowers a stored watermark. When a run completes, and which requests it
   * sends either way, is stated by `RunCompletesIffEveryPassCompletes` and
   * `RunAbortsAtFirstAbortingPass`; `RunRerunKeepsState` states that a second
   * run over the same fetches leaves the state as it is.
   */
  function Run(state: State, accounts: seq<string>, fetches: seq<Option<seq<Post>>>): (r: Outcome)
    requires |fetches| == |accounts|
    ensures r.Completed? ==> forall k :: k in state ==> k in r.state && state[k] <= r.state[k]
    ensures r.Completed? ==> forall k :: k !in accounts ==> Lookup(r.state, k) == Lookup(state, k)
    decreases |accounts|
  {
    if |accounts| == 0 then Completed(state, [])
    else
      match RunAccount(state, accounts[0], fetches[0])
      case Aborted(sent) => Aborted(sent)
      case Completed(s1, sent) =>
        var rest := Run(s1, accounts[1..], fetches[1..]);
        assert forall k :: k !in accounts ==> k !in accounts[1..] && k != accounts[0];
        assert forall k :: k != accounts[0] ==> Lookup(s1, k) == Lookup(state, k) by {
          forall k | k != accounts[0]
            ensures Lookup(s1, k) == Lookup(state, k)
          {
            assert k in s1 <==> k in s1 - {accounts[0]};
            assert k in state <==> k in state - {accounts[0]};
          }
        }
        match rest
        case Aborted(more) => Aborted(sent + more)
        case Completed(s2, more) => Completed(s2, sent + more)
  }

  /**
   * An account whose profile cannot be loaded, and which is listed once, keeps
   * its stored watermark through a completed run, however the other accounts fare.
   */
  lemma {:induction false} FailedFetchKeepsWatermark(
    state: State, accounts: seq<string>, fetches: seq<Option<seq<Post>>>, j: nat)
    requires |fetches| == |accounts| && j < |accounts|
    requires fetches[j].None?
    requires forall i :: 0 <= i < |accounts| && i != j ==> accounts[i] != accounts[j]
    requires Run(state, accounts, fetches).Completed?
    ensures Lookup(Run(state, accounts, fetches).state, accounts[j]) == Lookup(state, accounts[j])
    decreases |accounts|
  {
    var u := accounts[j];
    RunUnfoldsOnce(state, accounts, fetches);
    var first := RunAccount(state, accounts[0], fetches[0]);
    if j == 0 {
      assert first.state == state;
      assert u !in accounts[1..];
    } else {
      PassLeavesOtherEntries(state, accounts[0], fetches[0], u);
      FailedFetchKeepsWatermark(first.state, accounts[1..], fetches[1..], j - 1);
    }
  }

  /**
   * In a completed run, an account listed once is fully processed: its own
   * pass completes, and its final watermark is the one that pass computes
   * from the initial state, whatever the other accounts did.
   */
  lemma {:induction false} ListedAccountIsProcessed(
    state: State, accounts: seq<string>, fetches: seq<Option<seq<Post>>>, j: nat)
    requires |fetches| == |accounts| && j < |accounts|
    requires forall i :: 0 <= i < |accounts| && i != j ==> accounts[i] != accounts[j]
    requires Run(state, accounts, fetches).Completed?
    ensures RunAccount(state, accounts[j], fetches[j]).Completed?
    ensures Lookup(Run(state, accounts, fetches).state, accounts[j])
         == Lookup(RunAccount(state, accounts[j], fetches[j]).state, accounts[j])
    decreases |accounts|
  {
    var u := accounts[j];
    RunUnfoldsOnce(state, accounts, fetches);
    var first := RunAccount(state, accounts[0], fetches[0]);
    if j == 0 {
      assert u !in accounts[1..];
    } else {
      PassLeavesOtherEntries(state, accounts[0], fetches[0], u);
      ListedAccountIsProcessed(first.state, accounts[1..], fetches[1..], j - 1);
      PassReadsOwnEntryOnly(first.state, state, u, fetches[j]);
    }
  }

  /** A completed run is its first pass, completed, followed by a completed run of the rest. */
  lemma RunUnfoldsOnce(state: State, accounts: seq<string>, fetches: seq<Option<seq<Post>>>)
    requires |fetches| == |accounts| && |accounts| > 0
    requires Run(state, accounts, fetches).Completed?
    ensures var first := RunAccount(state, accounts[0], fetches[0]);
      && first.Completed?
      && Run(first.state, accounts[1..], fetches[1..]).Completed?
      && Run(state, accounts, fetches).state == Run(first.state, accounts[1..], fetches[1..]).state
  {
  }

  /** A completed pass leaves every other account's entry as it was. */
  lemma PassLeavesOtherEntries(state: State, username: string, fetched: Option<seq<Post>>, other: string)
    requires RunAccount(state, username, fetched).Completed?
    requires other != username
    ensures Lookup(RunAccount(state, username, fetched).state, other) == Lookup(state, other)
  {
    var first := RunAccount(state, username, fetched);
    assert other in first.state <==> other in first.state - {username};
    assert other in state <==> other in state - {username};
  }

  /** Each account appears at most once in the list. */
  predicate Distinct(accounts: seq<string>) {
    forall i, k :: 0 <= i < k < |accounts| ==> accounts[i] != accounts[k]
  }

  /** The requests of every account's own pass from the initial state, in account order. */
  function AllRequests(state: State, accounts: seq<string>, fetches: seq<Option<seq<Post>>>): seq<Action>
    requires |fetches| == |accounts|
    decreases |accounts|
  {
    if |accounts| == 0 then []
    else RunAccount(state, accounts[0], fetches[0]).requests + AllRequests(state, accounts[1..], fetches[1..])
  }

  /** Two states that agree on every listed account give every listed account the same pass requests. */
  lemma {:induction false} AgreeingStatesGiveSameRequests(
    s1: State, s2: State, accounts: seq<string>, fetches: seq<Option<seq<Post>>>)
    requires |fetches| == |accounts|
    requires forall j :: 0 <= j < |accounts| ==> Lookup(s1, accounts[j]) == Lookup(s2, accounts[j])
    ensures AllRequests(s1, accounts, fetches) == AllRequests(s2, accounts, fetches)
    decreases |accounts|
  {
    if |accounts| > 0 {
      PassReadsOwnEntryOnly(s1, s2, accounts[0], fetches[0]);
      var tail := accounts[1..];
      assert forall j :: 0 <= j < |tail| ==> tail[j] == accounts[j + 1];
      AgreeingStatesGiveSameRequests(s1, s2, tail, fetches[1..]);
    }
  }

  /**
   * With every account listed once, a run completes exactly when every
   * account's own pass, taken from the initial state, completes; a failed
   * profile load, whose pass always completes, therefore never ends the run.
   * A completed run sends the requests of the passes in account order.
   */
  lemma {:induction false} RunCompletesIffEveryPassCompletes(
    state: State, accounts: seq<string>, fetches: seq<Option<seq<Post>>>)
    requires |fetches| == |accounts| && Distinct(accounts)
    ensures Run(state, accounts, fetches).Completed?
        <==> forall j :: 0 <= j < |accounts| ==> RunAccount(state, accounts[j], fetches[j]).Completed?
    ensures Run(state, accounts, fetches).Completed?
        ==> Run(state, accounts, fetches).requests == AllRequests(state, accounts, fetches)
    decreases |accounts|
  {
    if |accounts| > 0 {
      var first := RunAccount(state, accounts[0], fetches[0]);
      if first.Completed? {
        var tail, ftail := accounts[1..], fetches[1..];
        assert Distinct(tail);
        assert forall j :: 0 <= j < |tail| ==> tail[j] == accounts[j + 1] && ftail[j] == fetches[j + 1];
        assert forall j :: 0 <= j < |tail| ==> Lookup(first.state, tail[j]) == Lookup(state, tail[j]) by {
          forall j | 0 <= j < |tail|
            ensures Lookup(first.state, tail[j]) == Lookup(state, tail[j])
          {
            assert tail[j] != accounts[0];
            PassLeavesOtherEntries(state, accounts[0], fetches[0], tail[j]);
          }
        }
        RunCompletesIffEveryPassCompletes(first.state, tail, ftail);
        AgreeingStatesGiveSameRequests(first.state, state, tail, ftail);
        forall j | 0 <= j < |tail|
          ensures RunAccount(first.state, tail[j], ftail[j]).Completed? == RunAccount(state, tail[j], ftail[j]).Completed?
        {
          PassReadsOwnEntryOnly(first.state, state, tail[j], ftail[j]);
        }
      }
    }
  }

  /**
   * With every account listed once, the first account's completed pass leaves
   * the entries of all later accounts as they were, and they stay listed once.
   */
  lemma FirstPassKeepsLaterEntries(state: State, accounts: seq<string>, fetches: seq<Option<seq<Post>>>)
    requires |fetches| == |accounts| && |accounts| > 0 && Distinct(accounts)
    requires RunAccount(state, accounts[0], fetches[0]).Completed?
    ensures Distinct(accounts[1..])
    ensures forall j :: 0 <= j < |accounts| - 1 ==>
      Lookup(RunAccount(state, accounts[0], fetches[0]).state, accounts[1..][j]) == Lookup(state, accounts[1..][j])
  {
    var tail := accounts[1..];
    forall j | 0 <= j < |tail|
      ensures Lookup(RunAccount(state, accounts[0], fetches[0]).state, tail[j]) == Lookup(state, tail[j])
    {
      assert tail[j] == accounts[j + 1];
      PassLeavesOtherEntries(state, accounts[0], fetches[0], tail[j]);
    }
  }

  /** Two states that agree on every listed account give each listed account the same pass outcome kind and requests. */
  lemma AgreeingStatesGiveSameOutcomes(s1: State, s2: State, accounts: seq<string>, fetches: seq<Option<seq<Post>>>)
    requires |fetches| == |accounts|
    requires forall j :: 0 <= j < |accounts| ==> Lookup(s1, accounts[j]) == Lookup(s2, accounts[j])
    ensures forall j :: 0 <= j < |accounts| ==>
      && RunAccount(s1, accounts[j], fetches[j]).Completed? == RunAccount(s2, accounts[j], fetches[j]).Completed?
      && RunAccount(s1, accounts[j], fetches[j]).requests == RunAccount(s2, accounts[j], fetches[j]).requests
  {
    forall j | 0 <= j < |accounts|
      ensures RunAccount(s1, accounts[j], fetches[j]).Completed? == RunAccount(s2, accounts[j], fetches[j]).Completed?
      ensures RunAccount(s1, accounts[j], fetches[j]).requests == RunAccount(s2, accounts[j], fetches[j]).requests
    {
      PassReadsOwnEntryOnly(s1, s2, accounts[j], fetches[j]);
    }
  }

  /** The requests of the first `k` passes are the first pass's followed by those of the next `k - 1`. */
  lemma AllRequestsOfPrefix(state: State, accounts: seq<string>, fetches: seq<Option<seq<Post>>>, k: nat)
    requires |fetches| == |accounts| && 0 < k <= |accounts|
    ensures AllRequests(state, accounts[..k], fetches[..k])
         == RunAccount(state, accounts[0], fetches[0]).requests + AllRequests(state, accounts[1..][..k - 1], fetches[1..][..k - 1])
  {
    assert accounts[..k][1..] == accounts[1..][..k - 1] && fetches[..k][1..] == fetches[1..][..k - 1];
    assert accounts[..k][0] == accounts[0] && fetches[..k][0] == fetches[0];
  }

  /**
   * With every account listed once, a run aborts at the first account whose
   * own pass aborts: it sends the requests of the passes before it, in
   * account order, then the requests that pass made before raising.
   */
  lemma {:induction false} RunAbortsAtFirstAbortingPass(
    state: State, accounts: seq<string>, fetches: seq<Option<seq<Post>>>, k: nat)
    requires |fetches| == |accounts| && Distinct(accounts) && k < |accounts|
    requires forall j :: 0 <= j < k ==> RunAccount(state, accounts[j], fetches[j]).Completed?
    requires RunAccount(state, accounts[k], fetches[k]).Aborted?
    ensures Run(state, accounts, fetches)
         == Aborted(AllRequests(state, accounts[..k], fetches[..k]) + RunAccount(state, accounts[k], fetches[k]).requests)
    decreases k, 1
  {
    if k == 0 {
      assert AllRequests(state, accounts[..0], fetches[..0]) == [];
    } else {
      var first := RunAccount(state, accounts[0], fetches[0]);
      assert first.Completed?;
      var tail, ftail := accounts[1..], fetches[1..];
      var before, fbefore := tail[..k - 1], ftail[..k - 1];
      var last := RunAccount(state, accounts[k], fetches[k]).requests;
      RestOfRunAborts(state, accounts, fetches, k);
      RunAfterCompletedPass(state, accounts, fetches);
      AllRequestsOfPrefix(state, accounts, fetches, k);
      ConcatAssociates(first.requests, AllRequests(state, before, fbefore), last);
    }
  }

  /** After a completed first pass, a run ends as the run of the rest does, the first pass's requests in front. */
  lemma RunAfterCompletedPass(state: State, accounts: seq<string>, fetches: seq<Option<seq<Post>>>)
    requires |fetches| == |accounts| && |accounts| > 0
    requires RunAccount(state, accounts[0], fetches[0]).Completed?
    ensures var first := RunAccount(state, accounts[0], fetches[0]);
      var rest := Run(first.state, accounts[1..], fetches[1..]);
      && Run(state, accounts, fetches).Aborted? == rest.Aborted?
      && Run(state, accounts, fetches).requests == first.requests + rest.requests
  {
  }

  /** Concatenation of request lists is associative. */
  lemma ConcatAssociates(a: seq<Action>, b: seq<Action>, c: seq<Action>)
    ensures a + (b + c) == (a + b) + c
  {
  }

  /** The step of `RunAbortsAtFirstAbortingPass`: the run of the accounts after the first aborts the same way. */
  lemma {:induction false} RestOfRunAborts(
    state: State, accounts: seq<string>, fetches: seq<Option<seq<Post>>>, k: nat)
    requires |fetches| == |accounts| && Distinct(accounts) && 0 < k < |accounts|
    requires forall j :: 0 <= j < k ==> RunAccount(state, accounts[j], fetches[j]).Completed?
    requires RunAccount(state, accounts[k], fetches[k]).Aborted?
    ensures var first := RunAccount(state, accounts[0], fetches[0]);
      Run(first.state, accounts[1..], fetches[1..])
        == Aborted(AllRequests(state, accounts[1..][..k - 1], fetches[1..][..k - 1]) + RunAccount(state, accounts[k], fetches[k]).requests)
    decreases k, 0
  {
    var first := RunAccount(state, accounts[0], fetches[0]);
    LaterPassesAfterFirst(state, accounts, fetches, k);
    RunAbortsAtFirstAbortingPass(first.state, accounts[1..], fetches[1..], k - 1);
  }

  /**
   * Seen from the state the first completed pass leaves, the later accounts'
   * passes complete, abort and send exactly as they do from the initial state.
   */
  lemma LaterPassesAfterFirst(state: State, accounts: seq<string>, fetches: seq<Option<seq<Post>>>, k: nat)
    requires |fetches| == |accounts| && Distinct(accounts) && 0 < k < |accounts|
    requires forall j :: 0 <= j < k ==> RunAccount(state, accounts[j], fetches[j]).Completed?
    requires RunAccount(state, accounts[k], fetches[k]).Aborted?
    ensures var s1 := RunAccount(state, accounts[0], fetches[0]).state;
      var tail, ftail := accounts[1..], fetches[1..];
      && Distinct(tail)
      && (forall j :: 0 <= j < k - 1 ==> RunAccount(s1, tail[j], ftail[j]).Completed?)
      && RunAccount(s1, tail[k - 1], ftail[k - 1]).Aborted?
      && RunAccount(s1, tail[k - 1], ftail[k - 1]).requests == RunAccount(state, accounts[k], fetches[k]).requests
      && AllRequests(s1, tail[..k - 1], ftail[..k - 1]) == AllRequests(state, tail[..k - 1], ftail[..k - 1])
  {
    var first := RunAccount(state, accounts[0], fetches[0]);
    assert first.Completed?;
    FirstPassKeepsLaterEntries(state, accounts, fetches);
    LaterOutcomesAfterFirst(state, accounts, fetches, k);
    var tail, ftail := accounts[1..], fetches[1..];
    var before, fbefore := tail[..k - 1], ftail[..k - 1];
    assert forall j :: 0 <= j < |before| ==> before[j] == tail[j];
    AgreeingStatesGiveSameRequests(first.state, state, before, fbefore);
  }

  /** The pass outcomes half of `LaterPassesAfterFirst`. */
  lemma LaterOutcomesAfterFirst(state: State, accounts: seq<string>, fetches: seq<Option<seq<Post>>>, k: nat)
    requires |fetches| == |accounts| && Distinct(accounts) && 0 < k < |accounts|
    requires forall j :: 0 <= j < k ==> RunAccount(state, accounts[j], fetches[j]).Completed?
    requires RunAccount(state, accounts[k], fetches[k]).Aborted?
    ensures var s1 := RunAccount(state, accounts[0], fetches[0]).state;
      var tail, ftail := accounts[1..], fetches[1..];
      && (forall j :: 0 <= j < k - 1 ==> RunAccount(s1, tail[j], ftail[j]).Completed?)
      && RunAccount(s1, tail[k - 1], ftail[k - 1]).Aborted?
      && RunAccount(s1, tail[k - 1], ftail[k - 1]).requests == RunAccount(state, accounts[k], fetches[k]).requests
  {
    var first := RunAccount(state, accounts[0], fetches[0]);
    assert first.Completed?;
    var tail, ftail := accounts[1..], fetches[1..];
    FirstPassKeepsLaterEntries(state, accounts, fetches);
    assert forall j :: 0 <= j < |tail| ==> tail[j] == accounts[j + 1] && ftail[j] == fetches[j + 1];
    AgreeingStatesGiveSameOutcomes(first.state, state, tail, ftail);
  }


  /**
   * A profile that cannot be loaded never ends the run: with every account
   * listed once, the run completes exactly when the passes of all the other
   * accounts do.
   */
  lemma FailedFetchNeverEndsRun(state: State, accounts: seq<string>, fetches: seq<Option<seq<Post>>>, j: nat)
    requires |fetches| == |accounts| && Distinct(accounts) && j < |accounts|
    requires fetches[j].None?
    ensures Run(state, accounts, fetches).Completed?
        <==> forall i :: 0 <= i < |accounts| && i != j ==> RunAccount(state, accounts[i], fetches[i]).Completed?
  {
    RunCompletesIffEveryPassCompletes(state, accounts, fetches);
    assert RunAccount(state, accounts[j], fetches[j]).Completed?;
  }

  /**
   * Running the whole list again over the same fetches, with every account
   * listed once, completes and leaves the state exactly as the first run left
   * it: a second run with no new posts writes an identical state file.
   */
  lemma RunRerunKeepsState(state: State, accounts: seq<string>, fetches: seq<Option<seq<Post>>>)
    requires |fetches| == |accounts| && Distinct(accounts)
    requires Run(state, accounts, fetches).Completed?
    ensures var s1 := Run(state, accounts, fetches).state;
      Run(s1, accounts, fetches).Completed? && Run(s1, accounts, fetches).state == s1
  {
    var s1 := Run(state, accounts, fetches).state;
    forall j | 0 <= j < |accounts|
      ensures RunAccount(s1, accounts[j], fetches[j]).Completed?
      ensures Lookup(RunAccount(s1, accounts[j], fetches[j]).state, accounts[j]) == Lookup(s1, accounts[j])
    {
      PassAgainAfterRun(state, accounts, fetches, j);
    }
    RunCompletesIffEveryPassCompletes(s1, accounts, fetches);
    var s2 := Run(s1, accounts, fetches).state;
    forall k
      ensures Lookup(s2, k) == Lookup(s1, k)
    {
      if j :| 0 <= j < |accounts| && accounts[j] == k {
        ListedAccountIsProcessed(s1, accounts, fetches, j);
      }
    }
    LookupDeterminesState(s2, s1);
  }

  /**
   * After a completed run, each listed account's pass over the same fetch
   * completes again and keeps that account's entry.
   */
  lemma PassAgainAfterRun(state: State, accounts: seq<string>, fetches: seq<Option<seq<Post>>>, j: nat)
    requires |fetches| == |accounts| && Distinct(accounts) && j < |accounts|
    requires Run(state, accounts, fetches).Completed?
    ensures var s1 := Run(state, accounts, fetches).state;
      && RunAccount(s1, accounts[j], fetches[j]).Completed?
      && Lookup(RunAccount(s1, accounts[j], fetches[j]).state, accounts[j]) == Lookup(s1, accounts[j])
  {
    var s1 := Run(state, accounts, fetches).state;
    var u, f := accounts[j], fetches[j];
    ListedAccountIsProcessed(state, accounts, fetches, j);
    var first := RunAccount(state, u, f);
    PassReadsOwnEntryOnly(s1, first.state, u, f);
    if f.Some? {
      RerunKeepsState(state, u, f.value);
    }
  }

  /** Two states with the same entry for every account are the same state. */
  lemma LookupDeterminesState(s1: State, s2: State)
    requires forall k :: Lookup(s1, k) == Lookup(s2, k)
    ensures s1 == s2
  {
    assert forall k :: k in s1 <==> k in s2 by {
      forall k ensures k in s1 <==> k in s2 {
        assert Lookup(s1, k) == Lookup(s2, k);
      }
    }
    forall k | k in s1
      ensures s1[k] == s2[k]
    {
      assert Lookup(s1, k) == Lookup(s2, k);
    }
  }
}

=== FILE: scanner.dfy ===
/**
 * The post scanner: walks one account's newest-first post stream, stops at
 * the post whose id equals the stored watermark, and computes the new
 * watermark as it goes.
 */
module Scanner {
  import opened Wrappers
  import opened Instagram

  /** True when `id` is the stored watermark (a missing watermark matches nothing). */
  predicate IsWatermark(last: Option<int>, id: int) {
    last.Some? && id == last.value
  }

  /** One step of the running maximum: absent, or smaller than `id`, is replaced by `id`. */
  function Raise(best: Option<int>, id: int): (r: Option<int>)
    ensures r.Some? && id <= r.value
    ensures best.Some? ==> best.value <= r.value
    ensures r == best || r == Some(id)
  {
    if best.None? || id > best.value then Some(id) else best
  }

  /** The posts to relay, in stream order, and the watermark to store afterwards. */
  datatype ScanResult = ScanResult(sent: seq<Post>, newLast: Option<int>)

  /**
   * The scan loop from some point on, with `best` the running watermark so far.
   * The posts emitted are the longest prefix free of the watermark id.
   */
  function ScanFrom(posts: seq<Post>, last: Option<int>, best: Option<int>): (r: ScanResult)
    ensures |r.sent| <= |posts| && r.sent == posts[..|r.sent|]
    ensures forall i :: 0 <= i < |r.sent| ==> !IsWatermark(last, r.sent[i].mediaid)
    ensures |r.sent| == |posts| || IsWatermark(last, posts[|r.sent|].mediaid)
    decreases |posts|
  {
    if |posts| == 0 || IsWatermark(last, posts[0].mediaid) then
      ScanResult([], best)
    else
      var rest := ScanFrom(posts[1..], last, Raise(best, posts[0].mediaid));
      var r := ScanResult([posts[0]] + rest.sent, rest.newLast);
      assert forall i :: 0 <= i < |rest.sent| ==> r.sent[i + 1] == rest.sent[i];
      assert r.sent == posts[..|r.sent|] by {
        assert posts[..|r.sent|] == [posts[0]] + posts[1..][..|rest.sent|];
      }
      r
  }

  /**
   * The running watermark of the scan loop only grows, bounds every emitted
   * id, and is either where it started or one of the emitted ids.
   */
  lemma {:induction false} ScanFromWatermark(posts: seq<Post>, last: Option<int>, best: Option<int>)
    ensures var r := ScanFrom(posts, last, best);
      && (r.newLast.None? <==> best.None? && |r.sent| == 0)
      && (r.newLast.Some? ==> forall i :: 0 <= i < |r.sent| ==> r.sent[i].mediaid <= r.newLast.value)
      && (r.newLast.Some? && best.Some? ==> best.value <= r.newLast.value)
      && (r.newLast == best || exists i :: 0 <= i < |r.sent| && r.newLast == Some(r.sent[i].mediaid))
    decreases |posts|
  {
    if |posts| > 0 && !IsWatermark(last, posts[0].mediaid) {
      var raised := Raise(best, posts[0].mediaid);
      var rest := ScanFrom(posts[1..], last, raised);
      ScanFromWatermark(posts[1..], last, raised);
      var r := ScanFrom(posts, last, best);
      assert r.sent == [posts[0]] + rest.sent && r.newLast == rest.newLast;
      assert forall i :: 0 <= i < |rest.sent| ==> r.sent[i + 1] == rest.sent[i];
      if rest.newLast != raised {
        var j :| 0 <= j < |rest.sent| && rest.newLast == Some(rest.sent[j].mediaid);
        assert r.newLast == Some(r.sent[j + 1].mediaid);
      } else if rest.newLast != best {
        assert r.newLast == Some(r.sent[0].mediaid);
      }
    }
  }

  /**
   * The scan of lines 102-113: the running watermark starts at the stored one.
   * With no stored watermark every post is emitted; the watermark is absent
   * afterwards exactly when nothing was emitted and none was stored.
   */
  function Scan(posts: seq<Post>, last: Option<int>): (r: ScanResult)
    ensures |r.sent| <= |posts| && r.sent == posts[..|r.sent|]
    ensures forall i :: 0 <= i < |r.sent| ==> !IsWatermark(last, r.sent[i].mediaid)
    ensures |r.sent| == |posts| || IsWatermark(last, posts[|r.sent|].mediaid)
    ensures last.None? ==> r.sent == posts
    ensures r.newLast.None? <==> last.None? && |posts| == 0
    ensures last.Some? ==> r.newLast.Some? && last.value <= r.newLast.value
    ensures r.newLast.Some? ==> forall i :: 0 <= i < |r.sent| ==> r.sent[i].mediaid <= r.newLast.value
    ensures r.newLast == last || exists i :: 0 <= i < |r.sent| && r.newLast == Some(r.sent[i].mediaid)
  {
    ScanFromWatermark(posts, last, last);
    ScanFrom(posts, last, last)
  }

  /** An attained upper bound of a sequence is its maximum. */
  lemma MaxOfIsAttainedBound(xs: seq<int>, m: int, k: nat)
    requires k < |xs| && xs[k] == m
    requires forall i :: 0 <= i < |xs| ==> xs[i] <= m
    ensures MaxOf(xs) == m
  {
  }

  /** With no stored watermark, the new watermark is the maximum id of the whole stream. */
  lemma FirstRunWatermarkIsMax(posts: seq<Post>)
    requires |posts| > 0
    ensures Scan(posts, None).newLast == Some(MaxOf(Ids(posts)))
  {
    var r := Scan(posts, None);
    var j :| 0 <= j < |r.sent| && r.newLast == Some(r.sent[j].mediaid);
    var ids := Ids(posts);
    var m := r.newLast.value;
    assert ids[j] == m && forall i :: 0 <= i < |ids| ==> ids[i] <= m by {
      assert r.sent == posts;
    }
    MaxOfIsAttainedBound(ids, m, j);
  }

  /**
   * With a stored watermark, the new watermark is the maximum of it and every
   * emitted id, so it never falls below the stored one.
   */
  lemma WatermarkIsMaxOfOldAndSent(posts: seq<Post>, w: int)
    ensures var r := Scan(posts, Some(w));
      r.newLast == Some(MaxOf([w] + Ids(r.sent)))
  {
    var r := Scan(posts, Some(w));
    var xs := [w] + Ids(r.sent);
    assert forall i :: 1 <= i < |xs| ==> xs[i] == r.sent[i - 1].mediaid;
    if r.newLast == Some(w) {
      MaxOfIsAttainedBound(xs, w, 0);
    } else {
      var j :| 0 <= j < |r.sent| && r.newLast == Some(r.sent[j].mediaid);
      MaxOfIsAttainedBound(xs, r.newLast.value, j + 1);
    }
  }

  /**
   * Nothing is emitted, and the watermark is kept, when the stream is empty or
   * opens with the watermark's own post: a re-run with no new posts is a no-op.
   */
  lemma ScanNothingNew(posts: seq<Post>, last: Option<int>)
    requires |posts| == 0 || IsWatermark(last, posts[0].mediaid)
    ensures Scan(posts, last) == ScanResult([], last)
  {
  }

  /**
   * On a newest-first stream that still holds the watermark's post, exactly
   * the posts with a larger id are emitted and the new watermark is the
   * newest id.
   */
  lemma SortedStreamStopsAtWatermark(posts: seq<Post>, w: int, k: nat)
    requires NewestFirst(posts)
    requires k < |posts| && posts[k].mediaid == w
    ensures var r := Scan(posts, Some(w));
      && r.sent == posts[..k]
      && (forall i :: 0 <= i < |posts| ==> (i < |r.sent| <==> posts[i].mediaid > w))
      && r.newLast == Some(posts[0].mediaid)
  {
  }

  /**
   * When the watermark's post has vanished from the stream, every visible
   * post is emitted again.
   */
  lemma VanishedWatermarkReemitsAll(posts: seq<Post>, w: int)
    requires forall i :: 0 <= i < |posts| ==> posts[i].mediaid != w
    ensures Scan(posts, Some(w)).sent == posts
  {
  }

  /**
   * Scanning again from the watermark a scan produced stops no later than the
   * first scan and produces the same watermark: the watermark is the old one
   * or an emitted id, and it bounds every emitted id.
   */
  lemma RescanAtNewWatermark(posts: seq<Post>, last: Option<int>)
    requires Scan(posts, last).newLast.Some?
    ensures var r := Scan(posts, last);
      var again := Scan(posts, r.newLast);
      && |again.sent| <= |r.sent|
      && again.sent == r.sent[..|again.sent|]
      && again.newLast == r.newLast
  {
    var r := Scan(posts, last);
    if r.newLast != last {
      var again := Scan(posts, r.newLast);
      var i :| 0 <= i < |r.sent| && r.newLast == Some(r.sent[i].mediaid);
      RescanStopsAtEmitted(posts, last, i);
      assert again.newLast == r.newLast by {
        assert forall k :: 0 <= k < |again.sent| ==> again.sent[k].mediaid <= r.newLast.value;
      }
    }
  }

  /** Scanning again from an id the scan emitted stops no later than that post. */
  lemma RescanStopsAtEmitted(posts: seq<Post>, last: Option<int>, i: nat)
    requires i < |Scan(posts, last).sent|
    ensures var r := Scan(posts, last);
      var again := Scan(posts, Some(r.sent[i].mediaid));
      |again.sent| <= i && again.sent == r.sent[..|again.sent|]
  {
    var r := Scan(posts, last);
    var again := Scan(posts, Some(r.sent[i].mediaid));
    assert |again.sent| <= i by {
      assert posts[i] == r.sent[i];
    }
    assert forall k :: 0 <= k < |again.sent| ==> again.sent[k] == r.sent[k];
  }
}

=== FILE: telegram.dfy ===
/**
 * The dispatch decision of `send_telegram_media`: which Bot API request a
 * caption and a media list turn into. Delivery itself is not modelled.
 */
module Telegram {
  import opened Wrappers
  import opened Media

  const HtmlMode: string := "HTML"

  /** The request that would be posted to the Bot API, if any. */
  datatype Action =
    | SendMediaGroup(media: seq<MediaItem>)
    | SendPhoto(photo: string, caption: string, parseMode: string)
    | SendVideo(video: string, caption: string, parseMode: string)
    | NoRequest

  /**
   * More than one item becomes a media group in which only the first item
   * gains the caption and the HTML parse mode; one item becomes a photo or
   * video send chosen by its type, and an item of any other type sends
   * nothing. An empty list is refused by the source (it indexes item 0).
   */
  function Dispatch(caption: string, media: seq<MediaItem>): (r: Action)
    requires |media| >= 1
    ensures |media| > 1 ==>
      && r.SendMediaGroup?
      && |r.media| == |media|
      && r.media[0] == media[0].(caption := Some(caption), parseMode := Some(HtmlMode))
      && forall i :: 1 <= i < |media| ==> r.media[i] == media[i]
    ensures |media| == 1 ==>
      && (r.SendPhoto? <==> media[0].kind == PhotoType)
      && (r.SendVideo? <==> media[0].kind == VideoType)
      && (r.NoRequest? <==> media[0].kind !in {PhotoType, VideoType})
      && (r.SendPhoto? ==> r == SendPhoto(media[0].media, caption, HtmlMode))
      && (r.SendVideo? ==> r == SendVideo(media[0].media, caption, HtmlMode))
  {
    if |media| > 1 then
      var first := media[0].(caption := Some(caption), parseMode := Some(HtmlMode));
      SendMediaGroup(media[0 := first])
    else
      var m := media[0];
      if m.kind == PhotoType then SendPhoto(m.media, caption, HtmlMode)
      else if m.kind == VideoType then SendVideo(m.media, caption, HtmlMode)
      else NoRequest
  }

  /**
   * Media collected from a post always leads to a real request: the items are
   * photos or videos, so the unknown-type branch is never taken.
   */
  lemma CollectedMediaAlwaysSends(caption: string, media: seq<MediaItem>)
    requires |media| >= 1
    requires forall i :: 0 <= i < |media| ==> media[i].kind in {PhotoType, VideoType}
    ensures !Dispatch(caption, media).NoRequest?
  {
  }
}

=== FILE: wrappers.dfy ===
/** Optional values, standing in for Python's `None`. */
module Wrappers {

  datatype Option<+T> = None | Some(value: T) {

    /** Returns the value held in Some, or `default` for None (Python's `x if x is not None else default`). */
    function GetOr(default: T): T {
      match this
      case Some(v) => v
      case None => default
    }
  }
}
